=== FILE: README.md ===
# file_validator, modelled in Dafny

`file_validator` decides whether a data file may enter a pipeline. A
*definition* document ties together three JSON schemas: one for the file's
sidecar metadata, one for its file name, and one for its header lines. The
model covers the validation logic of `file_validator/validate.py` and
`file_validator/utilities.py`:

- the numeric-field mask of a schema (`get_numeric_fields_in_schema`);
- metadata validation with its one sanctioned retry after coercing
  numeric fields with `float()` (`validate_metadata`);
- positional header validation that reports every failing line
  (`validate_header`);
- the orchestration: loading the definition, resolving relative schema
  references against the definition's directory, then checking metadata,
  file name and header in that order (`validate_file`,
  `get_absolute_path_from_relative_path`, `get_json`).

Everything is a pure function returning `Result<T>`. Each Python exception
becomes an `Error` value (`results.dfy`). Python values produced by
`json.load` are the `Json` datatype (`json.dfy`). The collaborators the code
only calls are fields of `Env` (`environment.dfy`):

- the filesystem is a map from path to what `json.load` and a text read make of the file;
- `jsonschema.validate` is an uninterpreted `validate(instance, schema)`;
- `float()` on strings is an uninterpreted partial `parseFloat`;
- `re.match` is an uninterpreted `matchPrefix(pattern, line)`;
- the working directory, ROOT_PATH and the locale encoding are plain values.

Two slips in `validate_file` are recorded under "Findings". Each has an
as-written model and an intended model. `FileValidation.ValidateFileAsWritten`
follows the code. `FileValidation.ValidateFile` is the intended version.

Files: `results.dfy`, `json.dfy`, `posix_path.dfy` (`os.path`),
`environment.dfy`, `utilities.dfy`, `metadata_validation.dfy`,
`header_validation.dfy`, `file_validation.dfy`.

## Model

| member | source | states |
|---|---|---|
| `Utilities.NumericFields` | file_validator/utilities.py:5-16 | The mask is `True` exactly when the schema's `type` is `"number"`. It is `False` exactly for any other declared type except `"object"`. Only an `"object"` schema can give a dict, and that dict has exactly the keys of `properties`. An `"object"` schema with a `properties` dict gets a mask exactly when every property's subschema does. A schema that is not a dict, or has no `type`, raises. |
| `Utilities.MaskMirrorsSchema` | file_validator/utilities.py:9-14 | At every depth, a path of property names leads into the mask exactly when it leads to a nested subschema. The entry found there is that subschema's own mask. So the entry is `True` exactly where the subschema is declared `"number"`. |
| `Utilities.ObjectSchemaMask` | file_validator/utilities.py:9-14 | An `"object"` schema with one `"number"` property and one property of another non-object type gives the dict mapping the first to `True` and the second to `False`. |
| `Utilities.NonObjectSchemaIsFlag` | file_validator/utilities.py:5-16 | A schema whose declared type is not `"object"` gives a bare bool: `True` for `"number"`, otherwise `False`. |
| `Utilities.ResolveRelative` | file_validator/utilities.py:19-23 | An absolute path comes back unchanged. A relative path comes back starting with `base_dir` and ending with the path. Against an absolute `base_dir` the result is absolute. |
| `Utilities.ResolveRelativeIdempotent` | file_validator/utilities.py:19-23 | Against an absolute base, resolving an already resolved path changes nothing, whatever the second base is. |
| `Utilities.GetJson` | file_validator/utilities.py:26-33 | A dict comes back unchanged. A string is the path of a file, whose parsed JSON is returned; a missing file raises FileNotFoundError and a file that does not parse raises a decode error. Anything else raises TypeError. |
| `Utilities.GetJsonIdempotent` | file_validator/utilities.py:26-33 | Loading what `get_json` returned, when that is a dict, gives the same dict in any filesystem. |
| `PosixPath.Join` | file_validator/utilities.py:21 | An absolute second part replaces the first. Otherwise the result starts with the first part and ends with the second. An absolute first part gives an absolute result. |
| `PosixPath.Dirname` | file_validator/validate.py:38 | The directory is a prefix of the path, and the directory of an absolute path is absolute. |
| `PosixPath.AbsPath` | file_validator/validate.py:37 | An absolute path is unchanged. With an absolute working directory, every result is absolute. |
| `PosixPath.Basename` | file_validator/validate.py:67 | The base name contains no separator and ends the path. It is either the whole path or directly preceded by a separator. |
| `MetadataValidation.ToFloat` | file_validator/validate.py:85 | `float(value)` succeeds exactly on bools, ints, floats and parseable strings, and always yields a float. A number keeps its numeric value. |
| `MetadataValidation.Coerce` | file_validator/validate.py:83-87 | The coerced record has exactly the input's keys. Fields whose mask entry is truthy become `float(value)`. All other fields, including undeclared ones, are unchanged. An empty record is never touched. On a non-empty record, a bare-bool mask raises TypeError. The comprehension fails exactly when some marked field cannot be converted. |
| `MetadataValidation.CoerceIdempotent` | file_validator/validate.py:84-87 | Coercing an already coerced record with the same mask gives the same record. |
| `MetadataValidation.NestedObjectFieldFailsCoercion` | file_validator/validate.py:85 | A property whose schema is a non-empty `"object"` has a truthy dict as its mask entry. A dict value in that field therefore reaches `float()`, and the coercion raises. |
| `MetadataValidation.ValidateMetadata` | file_validator/validate.py:73-90 | A record the schema accepts comes back unchanged, whatever the flag. Without the flag, the first violation is re-raised with the engine's message. Whatever comes back satisfies the schema. A changed result is the coercion of the input record. With the flag, a rejected record is retried. The coerced record is returned when it validates, and otherwise its violation is raised. A mask error raises MalformedSchema, a record that is not a dict raises AttributeError, and a coercion failure raises its own error. |
| `MetadataValidation.ValidateMetadataIdempotent` | file_validator/validate.py:75-90 | Running `validate_metadata` again on its own successful output, with either flag, returns that output. |
| `MetadataValidation.CoerceSingleField` | file_validator/validate.py:83-87 | Under a mask that marks exactly one field of the record, and that field holds a parseable string, coercion converts that field to its float and leaves every other field as it was. |
| `MetadataValidation.CoercesNumericString` | tests/test_validation.py:15-22 | Take a record rejected only because a `"number"` field holds the string `"123"`, under a schema where that is the record's only numeric field, whatever other properties it declares. With the flag it comes back with that field as the float 123.0 and every other field untouched. Without the flag it raises the engine's violation. |
| `HeaderValidation.InvalidHeaders` | file_validator/validate.py:115-118 | The failure dict's keys are exactly the lines that failed at some position. Each maps to the pattern of the last position at which that line failed, because later entries overwrite earlier ones. |
| `HeaderValidation.CheckLines` | file_validator/validate.py:109-113 | Exactly `min(len(headers), len(items))` positions are checked, pairing line `i` with item `i`. Each check records the line, the item's pattern and whether the pattern matched at the start of the line. The loop fails exactly when some position cannot be checked, and the first such position's error is the one raised. |
| `HeaderValidation.Zip` | file_validator/validate.py:109-110 | A list `prefixItems` is checked position by position. A dict or string `prefixItems` raises TypeError as soon as one pair exists and otherwise checks nothing. Any other value raises TypeError. |
| `HeaderValidation.HeaderCount` | file_validator/validate.py:99-106 | The number of lines kept is at most the number available. Every kept index is below `minItems`, and the first index not kept is not below it. A non-numeric limit raises only if the file has a line. |
| `HeaderValidation.ValidateHeader` | file_validator/validate.py:93-119 | When `minItems != maxItems`, or `prefixItems` is absent, the configuration error is raised before any file is opened. A pass implies a well-formed header schema. A failure report is never empty. |
| `HeaderValidation.ValidateHeaderByChecks` | file_validator/validate.py:108-119 | For a well-formed schema and a readable file, the function passes exactly when every check matched. Otherwise it raises with the failure dict built from the checks. |
| `HeaderValidation.ChecksReport` | file_validator/validate.py:108-118 | In terms of lines and item schemas: all checks matched exactly when every checked line matches its pattern. The failure dict holds exactly the lines that did not match, each with the pattern of its last failing position. |
| `HeaderValidation.HeaderVerdict` | file_validator/validate.py:93-119 | The header passes exactly when each of the first `min(lines read, len(prefixItems))` lines matches its position's pattern. Otherwise it raises a report whose keys are exactly the failing lines. Each failing line maps to the pattern of the last position where it failed, so all failures are reported, not just the first. |
| `HeaderValidation.ShortFileAccepted` | file_validator/validate.py:99-113 | A file with fewer lines than `minItems` passes when the lines it has match their patterns. |
| `HeaderValidation.SecondLineReported` | file_validator/validate.py:108-119 | Take two declared lines where the first matches and the second does not. The report is exactly `{second line: second pattern}`. |
| `FileValidation.DefinitionSchemaPath` | file_validator/validate.py:8-9 | The meta-schema path starts with ROOT_PATH, so it is absolute when ROOT_PATH is. |
| `FileValidation.AllAbsolute` | file_validator/validate.py:32-36 | The condition holds exactly when the metadata reference, the filename reference and the checked section's `headerSchema` are all absolute strings. |
| `FileValidation.DefinitionDir` | file_validator/validate.py:37-38 | With an absolute working directory, the definition's directory is absolute. |
| `FileValidation.ReferencesAsWritten` | file_validator/validate.py:31-52 | The metadata and filename references are resolved against the definition's directory on both branches, since resolving an absolute path is the identity. The condition, including its test of `document.headerSchema`, is evaluated without raising. When the metadata reference, the filename reference and `document.headerSchema` are all absolute, `content.headerSchema` is used as given. Otherwise `content.headerSchema` is resolved against the definition's directory. |
| `FileValidation.ResolveReferences` | file_validator/validate.py:31-52 | All three references come back resolved against the definition's directory. With an absolute working directory they are all absolute. When all three are strings, resolution succeeds. |
| `FileValidation.ReferencesErrors` | file_validator/validate.py:32-52 | Finding the references fails only with a KeyError for a missing key or a TypeError for a reference of the wrong type. |
| `FileValidation.LoadSchemas` | file_validator/validate.py:54-56 | Succeeds exactly when all three references load, and returns what `get_json` makes of each. A failure is a loading error: a missing file, bad JSON or a reference of the wrong type. |
| `FileValidation.SelectSchemas` | file_validator/validate.py:31-56 | The passed schemas are used unless the definition names an existing file. In the intended version a file definition's schemas are those its resolved references load. A failure here is never a schema violation or the missing-schemas error. |
| `FileValidation.EncodingOf` | file_validator/validate.py:68 | The header is read with `document.encoding` when present, and with `"utf-8"` when `document` has no `encoding`. |
| `FileValidation.LoadDefinition` | file_validator/validate.py:27-29 | A loaded definition is returned when the meta-schema loaded from DEFINITION_SCHEMA_PATH accepts it. When the meta-schema rejects it, the engine's violation is raised. An error loading the definition is the one raised. |
| `FileValidation.RunChecks` | file_validator/validate.py:66-70 | A metadata failure is raised before the file name or the file is looked at. Then the base name is validated, then the encoding is looked up (a definition without a `document` dict raises), then the header decides. On success the path comes back unchanged, together with the validated metadata. |
| `FileValidation.ValidateFileAsWritten` | file_validator/validate.py:12-70 | A definition given as a path never passes; success needs a dict definition and three dict schemas from the caller. |
| `FileValidation.ValidateFile` | file_validator/validate.py:12-70 | The steps run in a fixed order, and each failure is reported as itself. An error loading the definition, or its rejection by the meta-schema, is raised first. Then an error finding or loading the schemas is raised. Then the missing-schemas error is raised when the definition or a selected schema is not a dict. A definition that is neither a string nor a dict raises TypeError. A dict definition that passes the meta-schema but lacks three dict schemas raises the missing-schemas error. Success requires a definition that passed the meta-schema, selected schemas that are all dicts, and passes of the metadata, file-name and header checks. It returns `filepath` unchanged with the validated metadata record. Once the definition loads and dict schemas are selected, the outcome is exactly that of the three checks in order. |
| `FileValidation.DictDefinitionAccepted` | file_validator/validate.py:58-70 | Take a dict definition that passes the meta-schema, passed with three dict schemas, where the metadata, the file name and the header pass. Both versions return the path with the validated metadata. |
| `FileValidation.AsWrittenAgreesOnDicts` | file_validator/validate.py:58-64 | For a definition passed as a dict, the as-written and the intended version give the same outcome. |
| `FileValidation.PathDefinitionEquivalent` | file_validator/validate.py:27-64 | A definition named by path behaves exactly like its loaded dict passed with the schemas its references lead to. Schemas passed alongside a path are ignored. |
| `FileValidation.PathDefinitionRejectedAsWritten` | file_validator/validate.py:58-64 | Take a definition named by path whose `document.metadataSchema` is relative. Whenever the intended version accepts it, the as-written version raises the missing-schemas error. |
| `FileValidation.PathDefinitionNeverChecked` | file_validator/validate.py:27-64 | As written, a definition named by path that passes the meta-schema always fails, and never with a schema violation: no metadata, name or header is checked. |
| `FileValidation.UnhandledMetadataReported` | tests/test_validation.py:24-30 | For a path definition whose metadata fails, with coercion off, the intended version raises the engine's violation, as the test expects. The as-written version raises an error other than that violation. |
| `FileValidation.HeaderReferenceCheckedInDocument` | file_validator/validate.py:32-36 | Take absolute metadata and filename references, with the header reference only under `content`. As written this raises `KeyError('headerSchema')`. The intended lookup resolves the header reference against the definition's directory. |
| `FileValidation.RelativeHeaderLeftUnresolved` | file_validator/validate.py:32-52 | When `document.headerSchema` is absolute but the `content.headerSchema` actually used is relative, the as-written code uses that relative reference unresolved. The intended version resolves it. |
| `FileValidation.ValidateMetadataIgnoresFiles` | file_validator/validate.py:73-90 | With a dict schema, `validate_metadata` reads no file: its outcome does not depend on the filesystem. |
| `FileValidation.TargetFileUnreadOnMetadataFailure` | file_validator/validate.py:66-68 | When the metadata fails, the target file is never read: replacing its contents leaves the outcome unchanged. |

## Left out

- The jsonschema engine is the uninterpreted `Env.validate`; its messages are opaque strings, and schema errors (`SchemaError`) are not told apart from violations.
- Regular expressions are the uninterpreted `Env.matchPrefix`: `re.match` semantics are not modelled, and a pattern that does not compile is a `RegexError`.
- `float()` on strings is the uninterpreted `Env.parseFloat`. Floats are reals, so IEEE rounding, `inf`/`nan` and the OverflowError of `float()` on huge ints are not modelled.
- File reading: a file is its `json.load` result plus its decoded lines per encoding. Lazy reading is not modelled (a decoding error past the header lines would not be raised by Python), and neither is the locale encoding `get_json` opens files with. `os.path.isfile` is membership in the file map, so directories are not modelled.
- `os.path.abspath` is modelled without `normpath`. Paths are POSIX "/" paths: the Windows paths of the tests are out. Bytes and path-like references are out, since JSON only yields strings.
- `Utilities.NumericFields`: its errors are reported as one `MalformedSchema`. Python raises `KeyError`, `TypeError` or `IndexError` (for a `properties` list such as `[5]`), depending on which property its dict order reaches first, and maps have no order.
- `MetadataValidation.Coerce`: `TypeError` and `ValueError` from `float()` are one `ConversionError`, for the same reason.
- Python `==` between `minItems` and `maxItems` is numeric for bools, ints and floats and structural otherwise, so lists or dicts holding `1` and `1.0` compare unequal here.
- The meta-schema's contents and ROOT_PATH are opaque: the meta-schema is whatever the file at `DefinitionSchemaPath(root)` holds.
- Exception messages (the f-string at validate.py:119) are replaced by structured payloads.
- The test fixture files (definition, metadata and header files) are not part of this model, so the tests appear only as lemmas over any environment with their shape.
- `validate_file` with a `filepath` that is not a string is not modelled.

## Behaviour worth noting

In these places the code does something a reader might not expect, and the model follows the code:

- The mask recurses to every depth, not one level.
- `validate_header` does not check that `prefixItems` has `minItems` entries.
- A `float()` failure raises directly rather than as part of the re-validation failure.
- A definition given by path is always rejected, although the docstring example of `validate_file` passes one (see "Findings").

## Findings

| source | as written | input that shows it | evidently intended | confidence | as-written member | corrected member |
|---|---|---|---|---|---|---|
| file_validator/validate.py:58-59 | the guard tests `isinstance(definition, dict)` on the raw argument | `definition` = path of a well-formed definition file, as in tests/test_validation.py:13 | test `definition_data`, the loaded definition | high; not executed | `FileValidation.ValidateFileAsWritten`, `FileValidation.PathDefinitionRejectedAsWritten` | `FileValidation.ValidateFile`, `FileValidation.PathDefinitionEquivalent` |
| file_validator/validate.py:35 | the absolute-path test reads `definition_data["document"]["headerSchema"]` | absolute `document.metadataSchema` and `document.filenameSchema`, header reference only at `content.headerSchema` | read `content.headerSchema`, the reference used at lines 47 and 52 | high; not executed | `FileValidation.ReferencesAsWritten`, `FileValidation.HeaderReferenceCheckedInDocument` | `FileValidation.ResolveReferences` |

=== FILE: environment.dfy ===
/** The world the validator runs in: the filesystem it reads and the
    collaborators whose semantics lie outside the model (the jsonschema
    engine, `float()` on strings, `re.match`). */
module Environment {
  import opened Results
  import opened Json

  /** What the jsonschema engine says about an instance and a schema. */
  datatype Verdict = Valid | Invalid(message: string)

  /** A file as the validator can see it: what `json.load` makes of it
      (`None` when it is not JSON), and its lines, each with its line
      terminator, for every encoding it can be decoded with. */
  datatype FileEntry = FileEntry(json: Option<Json>, text: map<string, seq<string>>)

  datatype Env = Env(
    /** Regular files by path. */
    files: map<string, FileEntry>,
    /** `os.getcwd()`, the base of `os.path.abspath`. */
    cwd: string,
    /** ROOT_PATH: the directory that holds the installed package. */
    root: string,
    /** The encoding `open` uses when it is given `encoding=None`. */
    localeEncoding: string,
    /** `jsonschema.validate(instance, schema)`. */
    validate: (Json, Json) -> Verdict,
    /** `float(s)` for a string `s`; `None` when it raises ValueError. */
    parseFloat: string -> Option<real>,
    /** `bool(re.match(pattern, line))`; `None` when the pattern does not compile. */
    matchPrefix: (string, string) -> Option<bool>)

  /** The same world with one file's contents replaced. */
  function WithFile(env: Env, path: string, entry: FileEntry): (r: Env)
    ensures r.files.Keys == env.files.Keys + {path}
    ensures r.files[path] == entry
    ensures forall p :: p in env.files && p != path ==> r.files[p] == env.files[p]
  {
    env.(files := env.files[path := entry])
  }
}

=== FILE: file_validation.dfy ===
/** validate_file (file_validator/validate.py): load a definition, find its
    three schemas, then check metadata, file name and header, in that order.

    Two versions are given. `ValidateFileAsWritten` follows the code line by
    line, including two slips: the guard at validate.py:58-59 tests the raw
    `definition` argument, so a definition named by path is always rejected,
    and validate.py:35 looks for `headerSchema` under `document` although the
    reference is read from `content`. `ValidateFile` is the version those
    lines evidently intend; the two agree on definitions passed as dicts. */
module FileValidation {
  import opened Results
  import opened Json
  import opened PosixPath
  import opened Environment
  import opened Utilities
  import opened MetadataValidation
  import opened HeaderValidation

  /** DEFINITION_SCHEMA_PATH: the bundled meta-schema, under ROOT_PATH. */
  function DefinitionSchemaPath(root: string): (r: string)
    ensures root <= r
    ensures IsAbs(root) ==> IsAbs(r)
  {
    Join(Join(Join(root, "file_validator"), "schema"), "definition_schema.json")
  }

  /** The three sub-schemas of a definition, as references or as documents. */
  datatype Schemas = Schemas(metadata: Json, filename: Json, header: Json)

  predicate AllDicts(schemas: Schemas)
  {
    schemas.metadata.JObj? && schemas.filename.JObj? && schemas.header.JObj?
  }

  /** `data[section][key]`. */
  function Lookup(data: Json, section: string, key: string): Result<Json>
  {
    var s :- Index(data, section);
    Index(s, key)
  }

  /** `os.path.isabs(ref)`: a reference that is not a string raises TypeError. */
  function IsAbsRef(ref: Json): (r: Result<bool>)
    ensures r.Ok? <==> ref.JStr?
    ensures r.Ok? ==> r.value == IsAbs(ref.s)
  {
    match ref
    case JStr(path) => Ok(IsAbs(path))
    case _ => Err(TypeError)
  }

  /** get_absolute_path_from_relative_path applied to a reference. */
  function ResolveRef(ref: Json, baseDir: string): (r: Result<Json>)
    ensures r.Ok? <==> ref.JStr?
    ensures r.Ok? ==> r.value == JStr(ResolveRelative(ref.s, baseDir))
  {
    match ref
    case JStr(path) => Ok(JStr(ResolveRelative(path, baseDir)))
    case _ => Err(TypeError)
  }

  /** The condition at validate.py:33-35, evaluated left to right with `and`
      stopping at the first relative reference. `checkedSection` is the
      section whose `headerSchema` the third test reads. */
  function AllAbsolute(data: Json, checkedSection: string): (r: Result<bool>)
    ensures r == Ok(true) ==>
              && Lookup(data, "document", "metadataSchema").Ok? && Lookup(data, "document", "metadataSchema").value.JStr?
              && IsAbs(Lookup(data, "document", "metadataSchema").value.s)
              && Lookup(data, "document", "filenameSchema").Ok? && Lookup(data, "document", "filenameSchema").value.JStr?
              && IsAbs(Lookup(data, "document", "filenameSchema").value.s)
              && Lookup(data, checkedSection, "headerSchema").Ok? && Lookup(data, checkedSection, "headerSchema").value.JStr?
              && IsAbs(Lookup(data, checkedSection, "headerSchema").value.s)
    // and conversely: three absolute strings make the condition true
    ensures (&& Lookup(data, "document", "metadataSchema").Ok? && Lookup(data, "document", "metadataSchema").value.JStr?
             && IsAbs(Lookup(data, "document", "metadataSchema").value.s)
             && Lookup(data, "document", "filenameSchema").Ok? && Lookup(data, "document", "filenameSchema").value.JStr?
             && IsAbs(Lookup(data, "document", "filenameSchema").value.s)
             && Lookup(data, checkedSection, "headerSchema").Ok? && Lookup(data, checkedSection, "headerSchema").value.JStr?
             && IsAbs(Lookup(data, checkedSection, "headerSchema").value.s))
            ==> r == Ok(true)
  {
    var metadataRef :- Lookup(data, "document", "metadataSchema");
    var metadataAbs :- IsAbsRef(metadataRef);
    if !metadataAbs then Ok(false)
    else
      var filenameRef :- Lookup(data, "document", "filenameSchema");
      var filenameAbs :- IsAbsRef(filenameRef);
      if !filenameAbs then Ok(false)
      else
        var headerRef :- Lookup(data, checkedSection, "headerSchema");
        IsAbsRef(headerRef)
  }

  /** The directory of the definition file, as validate.py:37-38 computes it. */
  function DefinitionDir(env: Env, definitionPath: string): (r: string)
    ensures IsAbs(env.cwd) ==> IsAbs(r)
  {
    Dirname(AbsPath(env.cwd, definitionPath))
  }

  /** validate.py:32-52: the three schema references of a definition loaded
      from `definitionPath`, resolved against its directory unless the
      condition of `AllAbsolute` holds, in which case they are taken as they are. */
  function References(env: Env, definitionPath: string, data: Json, checkedSection: string): Result<Schemas>
  {
    var allAbs :- AllAbsolute(data, checkedSection);
    if !allAbs then
      var dir := DefinitionDir(env, definitionPath);
      var metadataRef :- Lookup(data, "document", "metadataSchema");
      var metadataPath :- ResolveRef(metadataRef, dir);
      var filenameRef :- Lookup(data, "document", "filenameSchema");
      var filenamePath :- ResolveRef(filenameRef, dir);
      var headerRef :- Lookup(data, "content", "headerSchema");
      var headerPath :- ResolveRef(headerRef, dir);
      Ok(Schemas(metadataPath, filenamePath, headerPath))
    else
      var metadataRef :- Lookup(data, "document", "metadataSchema");
      var filenameRef :- Lookup(data, "document", "filenameSchema");
      var headerRef :- Lookup(data, "content", "headerSchema");
      Ok(Schemas(metadataRef, filenameRef, headerRef))
  }

  /** Only a missing key or a reference of the wrong type can make validate.py:32-52 fail. */
  lemma ReferencesErrors(env: Env, definitionPath: string, data: Json, checkedSection: string)
    requires References(env, definitionPath, data, checkedSection).Err?
    ensures var e := References(env, definitionPath, data, checkedSection).error;
            e.KeyError? || e == TypeError
  {
  }

  /** `resolved` is the reference at `data[section][key]` resolved against the definition's directory. */
  predicate ResolvesTo(env: Env, definitionPath: string, data: Json, section: string, key: string, resolved: Json)
  {
    && Lookup(data, section, key).Ok?
    && Lookup(data, section, key).value.JStr?
    && resolved == JStr(ResolveRelative(Lookup(data, section, key).value.s, DefinitionDir(env, definitionPath)))
  }

  /** Both branches of validate.py:32-52 give resolved metadata and filename
      references; the header reference is resolved unless the condition held. */
  lemma ReferencesShape(env: Env, definitionPath: string, data: Json, checkedSection: string)
    requires References(env, definitionPath, data, checkedSection).Ok?
    ensures var r := References(env, definitionPath, data, checkedSection).value;
            && ResolvesTo(env, definitionPath, data, "document", "metadataSchema", r.metadata)
            && ResolvesTo(env, definitionPath, data, "document", "filenameSchema", r.filename)
            && (|| ResolvesTo(env, definitionPath, data, "content", "headerSchema", r.header)
                || (AllAbsolute(data, checkedSection) == Ok(true) && Ok(r.header) == Lookup(data, "content", "headerSchema")))
  {
    if AllAbsolute(data, checkedSection) == Ok(true) {
      assert Lookup(data, "document", "metadataSchema").value.JStr?;
      assert Lookup(data, "document", "filenameSchema").value.JStr?;
    }
  }

  /** validate.py:32-52 as written: the condition reads `document.headerSchema`. */
  function ReferencesAsWritten(env: Env, definitionPath: string, data: Json): (r: Result<Schemas>)
    // the metadata and filename references come out resolved on both branches
    ensures r.Ok? ==> ResolvesTo(env, definitionPath, data, "document", "metadataSchema", r.value.metadata)
    ensures r.Ok? ==> ResolvesTo(env, definitionPath, data, "document", "filenameSchema", r.value.filename)
    // the condition, with its `document.headerSchema` test, was evaluated without raising
    ensures r.Ok? ==> AllAbsolute(data, "document").Ok?
    // when it held, `content.headerSchema` is used as given
    ensures r.Ok? && AllAbsolute(data, "document") == Ok(true) ==>
              Ok(r.value.header) == Lookup(data, "content", "headerSchema")
    // otherwise it is resolved against the definition's directory
    ensures r.Ok? && AllAbsolute(data, "document") == Ok(false) ==>
              ResolvesTo(env, definitionPath, data, "content", "headerSchema", r.value.header)
    ensures r.Err? ==> r.error.KeyError? || r.error == TypeError
  {
    var r := References(env, definitionPath, data, "document");
    if r.Ok? then ReferencesShape(env, definitionPath, data, "document"); r
    else ReferencesErrors(env, definitionPath, data, "document"); r
  }

  /** validate.py:32-52 with the condition reading `content.headerSchema`,
      the reference that is then used. */
  function ResolveReferences(env: Env, definitionPath: string, data: Json): (r: Result<Schemas>)
    ensures r.Ok? ==> ResolvesTo(env, definitionPath, data, "document", "metadataSchema", r.value.metadata)
    ensures r.Ok? ==> ResolvesTo(env, definitionPath, data, "document", "filenameSchema", r.value.filename)
    ensures r.Ok? ==> ResolvesTo(env, definitionPath, data, "content", "headerSchema", r.value.header)
    ensures r.Ok? && IsAbs(env.cwd) ==>
              IsAbs(r.value.metadata.s) && IsAbs(r.value.filename.s) && IsAbs(r.value.header.s)
    ensures (&& Lookup(data, "document", "metadataSchema").Ok? && Lookup(data, "document", "metadataSchema").value.JStr?
             && Lookup(data, "document", "filenameSchema").Ok? && Lookup(data, "document", "filenameSchema").value.JStr?
             && Lookup(data, "content", "headerSchema").Ok? && Lookup(data, "content", "headerSchema").value.JStr?)
            ==> r.Ok?
    ensures r.Err? ==> r.error.KeyError? || r.error == TypeError
  {
    var r := References(env, definitionPath, data, "content");
    if r.Ok? then ReferencesShape(env, definitionPath, data, "content"); r
    else ReferencesErrors(env, definitionPath, data, "content"); r
  }

  /** validate.py:54-56. */
  function LoadSchemas(env: Env, refs: Schemas): (r: Result<Schemas>)
    ensures r.Ok? ==> Ok(r.value.metadata) == GetJson(env, refs.metadata)
    ensures r.Ok? ==> Ok(r.value.filename) == GetJson(env, refs.filename)
    ensures r.Ok? ==> Ok(r.value.header) == GetJson(env, refs.header)
    ensures r.Ok? <==> GetJson(env, refs.metadata).Ok? && GetJson(env, refs.filename).Ok? && GetJson(env, refs.header).Ok?
    // a failure is the first loading error, never a schema violation
    ensures r.Err? ==> r.error.FileNotFound? || r.error.JsonDecodeError? || r.error == TypeError
  {
    var metadataSchema :- GetJson(env, refs.metadata);
    var filenameSchema :- GetJson(env, refs.filename);
    var headerSchema :- GetJson(env, refs.header);
    Ok(Schemas(metadataSchema, filenameSchema, headerSchema))
  }

  /** `definition_data["document"].get("encoding", "utf-8")`. */
  function EncodingOf(data: Json): (r: Result<Json>)
    ensures Lookup(data, "document", "encoding").Ok? ==> r == Lookup(data, "document", "encoding")
    ensures (Index(data, "document").Ok? && Index(data, "document").value.JObj? &&
             "encoding" !in Index(data, "document").value.fields) ==> r == Ok(JStr("utf-8"))
  {
    var document :- Index(data, "document");
    GetOr(document, "encoding", JStr("utf-8"))
  }

  /** validate.py:66-70: metadata, then the file name, then the header. */
  function RunChecks(env: Env, filepath: string, metadata: Json, data: Json, schemas: Schemas, handleDeserialized: bool)
    : (r: Result<(string, Json)>)
    // a metadata failure is reported before the file name or the file is looked at
    ensures ValidateMetadata(env, metadata, schemas.metadata, handleDeserialized).Err? ==>
              r == Err(ValidateMetadata(env, metadata, schemas.metadata, handleDeserialized).error)
    // then the base name of the path is validated against the filename schema
    ensures ValidateMetadata(env, metadata, schemas.metadata, handleDeserialized).Ok? &&
            env.validate(JStr(Basename(filepath)), schemas.filename).Invalid? ==>
              r == Err(SchemaViolation(env.validate(JStr(Basename(filepath)), schemas.filename).message))
    // success: all three checks passed, and the path comes back with the validated metadata
    ensures r.Ok? ==>
              && r.value.0 == filepath
              && ValidateMetadata(env, metadata, schemas.metadata, handleDeserialized) == Ok(r.value.1)
              && env.validate(JStr(Basename(filepath)), schemas.filename) == Valid
              && EncodingOf(data).Ok?
              && ValidateHeader(env, filepath, EncodingOf(data).value, schemas.header) == Ok(())
    // then the encoding is looked up, and a missing `document` section raises
    ensures ValidateMetadata(env, metadata, schemas.metadata, handleDeserialized).Ok? &&
            env.validate(JStr(Basename(filepath)), schemas.filename) == Valid && EncodingOf(data).Err? ==>
              r == Err(EncodingOf(data).error)
    // once metadata and name pass, the header check decides
    ensures ValidateMetadata(env, metadata, schemas.metadata, handleDeserialized).Ok? &&
            env.validate(JStr(Basename(filepath)), schemas.filename) == Valid && EncodingOf(data).Ok? ==>
              (r.Ok? <==> ValidateHeader(env, filepath, EncodingOf(data).value, schemas.header).Ok?)
  {
    var validated :- ValidateMetadata(env, metadata, schemas.metadata, handleDeserialized);
    var _ :- ValidateAgainst(env, JStr(Basename(filepath)), schemas.filename);
    var encoding :- EncodingOf(data);
    var _ :- ValidateHeader(env, filepath, encoding, schemas.header);
    Ok((filepath, validated))
  }

  /** Lines 27-29: load the definition and check it against the meta-schema. */
  function LoadDefinition(env: Env, definition: Json): (r: Result<Json>)
    ensures r.Ok? ==> GetJson(env, definition) == Ok(r.value)
    ensures r.Ok? ==> GetJson(env, JStr(DefinitionSchemaPath(env.root))).Ok?
    ensures r.Ok? ==> env.validate(r.value, GetJson(env, JStr(DefinitionSchemaPath(env.root))).value) == Valid
    ensures GetJson(env, definition).Err? ==> r == GetJson(env, definition)
    // a loaded definition is returned when the meta-schema accepts it, and the violation raised otherwise
    ensures var meta := GetJson(env, JStr(DefinitionSchemaPath(env.root)));
            GetJson(env, definition).Ok? && meta.Ok? ==>
              r == (match env.validate(GetJson(env, definition).value, meta.value)
                    case Valid => Ok(GetJson(env, definition).value)
                    case Invalid(m) => Err(SchemaViolation(m)))
  {
    var data :- GetJson(env, definition);
    var definitionSchema :- GetJson(env, JStr(DefinitionSchemaPath(env.root)));
    var _ :- ValidateAgainst(env, data, definitionSchema);
    Ok(data)
  }

  /** validate.py:31-56: the schemas to check against. A definition named by
      an existing path brings its own references, found by
      `ReferencesAsWritten` or, when `asWritten` is false, by
      `ResolveReferences`; otherwise the schemas passed in are used. */
  function SelectSchemas(env: Env, definition: Json, data: Json, passed: Schemas, asWritten: bool): (r: Result<Schemas>)
    ensures !(definition.JStr? && definition.s in env.files) ==> r == Ok(passed)
    ensures definition.JStr? && definition.s in env.files && !asWritten && r.Ok? ==>
              ResolveReferences(env, definition.s, data).Ok? && r == LoadSchemas(env, ResolveReferences(env, definition.s, data).value)
    ensures r.Err? ==> !r.error.SchemaViolation? && !r.error.SchemasRequired?
  {
    if definition.JStr? && definition.s in env.files then
      var refs :- if asWritten then ReferencesAsWritten(env, definition.s, data)
                  else ResolveReferences(env, definition.s, data);
      LoadSchemas(env, refs)
    else Ok(passed)
  }

  /** validate_file as written. */
  function ValidateFileAsWritten(env: Env, filepath: string, metadata: Json, definition: Json,
                                 metadataSchema: Json, filenameSchema: Json, headerSchema: Json,
                                 handleDeserialized: bool): (r: Result<(string, Json)>)
    // a definition given by path never gets through the guard at lines 58-64
    ensures definition.JStr? ==> r.Err?
    ensures r.Ok? ==> r.value.0 == filepath && definition.JObj? && AllDicts(Schemas(metadataSchema, filenameSchema, headerSchema))
  {
    var data :- LoadDefinition(env, definition);
    var schemas :- SelectSchemas(env, definition, data, Schemas(metadataSchema, filenameSchema, headerSchema), true);
    if !(definition.JObj? && AllDicts(schemas)) then Err(SchemasRequired)
    else RunChecks(env, filepath, metadata, data, schemas, handleDeserialized)
  }

  /** validate_file as evidently intended: the guard tests the loaded
      definition, and references are resolved through `ResolveReferences`. */
  function ValidateFile(env: Env, filepath: string, metadata: Json, definition: Json,
                        metadataSchema: Json, filenameSchema: Json, headerSchema: Json,
                        handleDeserialized: bool): (r: Result<(string, Json)>)
    ensures !definition.JStr? && !definition.JObj? ==> r == Err(TypeError)
    ensures definition.JObj? && !AllDicts(Schemas(metadataSchema, filenameSchema, headerSchema)) ==> r.Err?
    ensures r.Ok? ==> r.value.0 == filepath
    ensures r.Ok? ==> LoadDefinition(env, definition).Ok?
    // success means the three checks passed against the selected schemas, and the
    // metadata returned is the validated record
    ensures r.Ok? ==>
              var data := LoadDefinition(env, definition).value;
              var passed := Schemas(metadataSchema, filenameSchema, headerSchema);
              && SelectSchemas(env, definition, data, passed, false).Ok?
              && var selected := SelectSchemas(env, definition, data, passed, false).value;
              && data.JObj? && AllDicts(selected)
              && ValidateMetadata(env, metadata, selected.metadata, handleDeserialized) == Ok(r.value.1)
              && env.validate(JStr(Basename(filepath)), selected.filename) == Valid
              && EncodingOf(data).Ok?
              && ValidateHeader(env, filepath, EncodingOf(data).value, selected.header) == Ok(())
    ensures (definition.JObj? && LoadDefinition(env, definition).Ok? &&
             !AllDicts(Schemas(metadataSchema, filenameSchema, headerSchema))) ==>
              r == Err(SchemasRequired)
    // the definition is loaded and checked first, then the schemas are selected, then the guard:
    // each failure is reported as itself
    ensures var loaded := LoadDefinition(env, definition);
            && (loaded.Err? ==> r == Err(loaded.error))
            && (loaded.Ok? ==>
                  var selected := SelectSchemas(env, definition, loaded.value, Schemas(metadataSchema, filenameSchema, headerSchema), false);
                  && (selected.Err? ==> r == Err(selected.error))
                  && (selected.Ok? && !(loaded.value.JObj? && AllDicts(selected.value)) ==> r == Err(SchemasRequired)))
    // once the definition loads and dict schemas are selected, the checks of RunChecks decide
    ensures var loaded := LoadDefinition(env, definition);
            loaded.Ok? ==>
              var selected := SelectSchemas(env, definition, loaded.value, Schemas(metadataSchema, filenameSchema, headerSchema), false);
              selected.Ok? && loaded.value.JObj? && AllDicts(selected.value) ==>
                r == RunChecks(env, filepath, metadata, loaded.value, selected.value, handleDeserialized)
  {
    var data :- LoadDefinition(env, definition);
    var schemas :- SelectSchemas(env, definition, data, Schemas(metadataSchema, filenameSchema, headerSchema), false);
    if !(data.JObj? && AllDicts(schemas)) then Err(SchemasRequired)
    else RunChecks(env, filepath, metadata, data, schemas, handleDeserialized)
  }

  /** The success case: a dict definition that passes the meta-schema, passed
      with three dict schemas that the metadata, the file name and the header
      all satisfy, gives back the path and the validated metadata. */
  lemma DictDefinitionAccepted(env: Env, filepath: string, metadata: Json, definition: Json,
                               passed: Schemas, validated: Json, flag: bool)
    requires definition.JObj? && LoadDefinition(env, definition).Ok? && AllDicts(passed)
    requires ValidateMetadata(env, metadata, passed.metadata, flag) == Ok(validated)
    requires env.validate(JStr(Basename(filepath)), passed.filename) == Valid
    requires EncodingOf(definition).Ok?
    requires ValidateHeader(env, filepath, EncodingOf(definition).value, passed.header) == Ok(())
    ensures ValidateFile(env, filepath, metadata, definition, passed.metadata, passed.filename, passed.header, flag)
            == Ok((filepath, validated))
    ensures ValidateFileAsWritten(env, filepath, metadata, definition, passed.metadata, passed.filename, passed.header, flag)
            == Ok((filepath, validated))
  {
  }

  /** On a definition passed as a dict the two versions agree. */
  lemma AsWrittenAgreesOnDicts(env: Env, filepath: string, metadata: Json, definition: Json,
                               metadataSchema: Json, filenameSchema: Json, headerSchema: Json, flag: bool)
    requires definition.JObj?
    ensures ValidateFileAsWritten(env, filepath, metadata, definition, metadataSchema, filenameSchema, headerSchema, flag)
            == ValidateFile(env, filepath, metadata, definition, metadataSchema, filenameSchema, headerSchema, flag)
  {
  }

  /** A definition named by path behaves exactly like the loaded definition
      passed together with the schemas its references lead to; whatever
      schemas the caller passed alongside the path are ignored. */
  lemma PathDefinitionEquivalent(env: Env, filepath: string, metadata: Json, path: string,
                                 metadataSchema: Json, filenameSchema: Json, headerSchema: Json, flag: bool)
    requires GetJson(env, JStr(path)).Ok?
    requires ResolveReferences(env, path, GetJson(env, JStr(path)).value).Ok?
    requires LoadSchemas(env, ResolveReferences(env, path, GetJson(env, JStr(path)).value).value).Ok?
    ensures var data := GetJson(env, JStr(path)).value;
            var loaded := LoadSchemas(env, ResolveReferences(env, path, data).value).value;
            data.JObj? &&
            ValidateFile(env, filepath, metadata, JStr(path), metadataSchema, filenameSchema, headerSchema, flag)
            == ValidateFile(env, filepath, metadata, data, loaded.metadata, loaded.filename, loaded.header, flag)
  {
    var data := GetJson(env, JStr(path)).value;
    assert Index(data, "document").Ok?;
  }

  /** The as-written guard rejects a definition named by path even when the
      intended version accepts it. The lemma covers definitions whose
      `document.metadataSchema` is relative: those take the resolving branch
      at line 32 in both versions. */
  lemma PathDefinitionRejectedAsWritten(env: Env, filepath: string, metadata: Json, path: string,
                                        metadataSchema: Json, filenameSchema: Json, headerSchema: Json, flag: bool)
    requires ValidateFile(env, filepath, metadata, JStr(path), metadataSchema, filenameSchema, headerSchema, flag).Ok?
    requires Lookup(GetJson(env, JStr(path)).value, "document", "metadataSchema").Ok?
    requires Lookup(GetJson(env, JStr(path)).value, "document", "metadataSchema").value.JStr?
    requires !IsAbs(Lookup(GetJson(env, JStr(path)).value, "document", "metadataSchema").value.s)
    ensures ValidateFileAsWritten(env, filepath, metadata, JStr(path), metadataSchema, filenameSchema, headerSchema, flag)
            == Err(SchemasRequired)
  {
    var data := GetJson(env, JStr(path)).value;
    assert AllAbsolute(data, "document") == Ok(false) == AllAbsolute(data, "content");
    assert ReferencesAsWritten(env, path, data) == ResolveReferences(env, path, data);
  }

  /** As written, a definition named by path that passes the meta-schema is
      stopped before any metadata, name or header is validated: the error is
      never a schema violation. */
  lemma PathDefinitionNeverChecked(env: Env, filepath: string, metadata: Json, path: string,
                                   metadataSchema: Json, filenameSchema: Json, headerSchema: Json, flag: bool)
    requires LoadDefinition(env, JStr(path)).Ok?
    ensures ValidateFileAsWritten(env, filepath, metadata, JStr(path), metadataSchema, filenameSchema, headerSchema, flag).Err?
    ensures !ValidateFileAsWritten(env, filepath, metadata, JStr(path), metadataSchema, filenameSchema, headerSchema, flag)
             .error.SchemaViolation?
  {
  }

  /** With the intended guard, a path definition whose metadata fails the
      schema reports the engine's violation, as
      tests/test_validation.py:24-30 expects; as written it reports the
      missing-schemas error instead. */
  lemma UnhandledMetadataReported(env: Env, filepath: string, metadata: Json, path: string, refs: Schemas,
                                  loaded: Schemas, message: string)
    requires LoadDefinition(env, JStr(path)).Ok?
    requires ResolveReferences(env, path, LoadDefinition(env, JStr(path)).value) == Ok(refs)
    requires LoadSchemas(env, refs) == Ok(loaded) && AllDicts(loaded)
    requires env.validate(metadata, loaded.metadata) == Invalid(message)
    ensures ValidateFile(env, filepath, metadata, JStr(path), JNull, JNull, JNull, false)
            == Err(SchemaViolation(message))
    ensures ValidateFileAsWritten(env, filepath, metadata, JStr(path), JNull, JNull, JNull, false).Err?
    ensures ValidateFileAsWritten(env, filepath, metadata, JStr(path), JNull, JNull, JNull, false)
            != Err(SchemaViolation(message))
  {
    var data := LoadDefinition(env, JStr(path)).value;
    assert data.JObj? by {
      assert Index(data, "document").Ok?;
    }
    assert ValidateMetadata(env, metadata, loaded.metadata, false) == Err(SchemaViolation(message));
    assert RunChecks(env, filepath, metadata, data, loaded, false) == Err(SchemaViolation(message));
    PathDefinitionNeverChecked(env, filepath, metadata, path, JNull, JNull, JNull, false);
  }

  /** A definition whose metadata and filename references are absolute and
      whose `document` section has no `headerSchema` (the reference lives in
      `content`) raises KeyError as written, while the intended lookup
      resolves the header reference against the definition's directory. */
  lemma HeaderReferenceCheckedInDocument(env: Env, path: string, metadataRef: string, filenameRef: string,
                                         headerRef: string)
    requires IsAbs(metadataRef) && IsAbs(filenameRef)
    ensures var data := JObj(map["document" := JObj(map["metadataSchema" := JStr(metadataRef),
                                                          "filenameSchema" := JStr(filenameRef)]),
                                 "content" := JObj(map["headerSchema" := JStr(headerRef)])]);
            && ReferencesAsWritten(env, path, data) == Err(KeyError("headerSchema"))
            && ResolveReferences(env, path, data)
               == Ok(Schemas(JStr(metadataRef), JStr(filenameRef),
                             JStr(ResolveRelative(headerRef, DefinitionDir(env, path)))))
  {
    var data := JObj(map["document" := JObj(map["metadataSchema" := JStr(metadataRef),
                                                  "filenameSchema" := JStr(filenameRef)]),
                         "content" := JObj(map["headerSchema" := JStr(headerRef)])]);
    assert Lookup(data, "document", "headerSchema") == Err(KeyError("headerSchema"));
    assert Lookup(data, "content", "headerSchema") == Ok(JStr(headerRef));
  }

  /** When `document.headerSchema` is absolute but the `content.headerSchema`
      that is used is relative, the as-written code loads the relative
      reference unresolved, that is, relative to the working directory. */
  lemma RelativeHeaderLeftUnresolved(env: Env, path: string, metadataRef: string, filenameRef: string,
                                     decoyRef: string, headerRef: string)
    requires IsAbs(env.cwd)
    requires IsAbs(metadataRef) && IsAbs(filenameRef) && IsAbs(decoyRef) && !IsAbs(headerRef)
    ensures var data := JObj(map["document" := JObj(map["metadataSchema" := JStr(metadataRef),
                                                          "filenameSchema" := JStr(filenameRef),
                                                          "headerSchema" := JStr(decoyRef)]),
                                 "content" := JObj(map["headerSchema" := JStr(headerRef)])]);
            && ReferencesAsWritten(env, path, data) == Ok(Schemas(JStr(metadataRef), JStr(filenameRef), JStr(headerRef)))
            && ResolveReferences(env, path, data).Ok?
            && ResolveReferences(env, path, data).value.header != JStr(headerRef)
  {
    var data := JObj(map["document" := JObj(map["metadataSchema" := JStr(metadataRef),
                                                  "filenameSchema" := JStr(filenameRef),
                                                  "headerSchema" := JStr(decoyRef)]),
                         "content" := JObj(map["headerSchema" := JStr(headerRef)])]);
    assert Lookup(data, "document", "headerSchema") == Ok(JStr(decoyRef));
    assert Lookup(data, "content", "headerSchema") == Ok(JStr(headerRef));
    var dir := DefinitionDir(env, path);
    assert |ResolveRelative(headerRef, dir)| > |headerRef| by {
      assert IsAbs(dir);
    }
  }

  /** validate_metadata with a dict schema never reads a file. */
  lemma ValidateMetadataIgnoresFiles(env: Env, other: Env, metadata: Json, schema: Json, flag: bool)
    requires schema.JObj?
    requires other.validate == env.validate && other.parseFloat == env.parseFloat
    ensures ValidateMetadata(other, metadata, schema, flag) == ValidateMetadata(env, metadata, schema, flag)
  {
    if metadata.JObj? && NumericFields(schema).Ok? {
      var mask := NumericFields(schema).value;
      forall k | k in metadata.fields
        ensures ToFloat(other, metadata.fields[k]) == ToFloat(env, metadata.fields[k])
      {
      }
      var mine := Coerce(env, metadata.fields, mask);
      var theirs := Coerce(other, metadata.fields, mask);
      assert mine.Ok? <==> theirs.Ok?;
      if mine.Ok? {
        assert mine.value.Keys == theirs.value.Keys;
        assert forall k | k in mine.value :: mine.value[k] == theirs.value[k];
        assert mine.value == theirs.value;
        assert other.validate(JObj(mine.value), schema) == env.validate(JObj(mine.value), schema);
      } else {
        assert mine.error == theirs.error;
      }
    }
  }

  /** When the metadata fails, the target file is never read: replacing its
      contents does not change the outcome. */
  lemma TargetFileUnreadOnMetadataFailure(env: Env, filepath: string, entry: FileEntry, metadata: Json,
                                          definition: Json, metadataSchema: Json, filenameSchema: Json,
                                          headerSchema: Json, flag: bool)
    requires definition.JObj? && metadataSchema.JObj?
    requires filepath != DefinitionSchemaPath(env.root)
    requires ValidateMetadata(env, metadata, metadataSchema, flag).Err?
    ensures ValidateFile(WithFile(env, filepath, entry), filepath, metadata, definition,
                         metadataSchema, filenameSchema, headerSchema, flag)
            == ValidateFile(env, filepath, metadata, definition, metadataSchema, filenameSchema, headerSchema, flag)
  {
    var other := WithFile(env, filepath, entry);
    ValidateMetadataIgnoresFiles(env, other, metadata, metadataSchema, flag);
    assert GetJson(other, JStr(DefinitionSchemaPath(env.root))) == GetJson(env, JStr(DefinitionSchemaPath(env.root)));
  }
}

=== FILE: header_validation.dfy ===
/** validate_header (file_validator/validate.py): check the leading lines of
    a file, position by position, against the `pattern` of each entry of a
    header schema's `prefixItems`, and report every failing line at once. */
module HeaderValidation {
  import opened Results
  import opened Json
  import opened Environment

  function Min(a: int, b: int): int
  {
    if a <= b then a else b
  }

  /** One position of the zip at validate.py:109: the line read, the pattern
      it was checked against, and whether the pattern matched at its start. */
  datatype Check = Check(line: string, pattern: string, matched: bool)

  /** Position `i` failed, on line `line`. */
  predicate FailsAt(checks: seq<Check>, i: int, line: string)
  {
    0 <= i < |checks| && !checks[i].matched && checks[i].line == line
  }

  /** Position `i` is the last failing position whose line is `line`. */
  predicate LastFailureAt(checks: seq<Check>, i: int, line: string)
  {
    FailsAt(checks, i, line) && forall j :: i < j < |checks| ==> !FailsAt(checks, j, line)
  }

  /** The dict comprehension at validate.py:116-118: failing line to its
      pattern, entries inserted in position order, so that a line failing at
      several positions keeps the pattern of the last one. */
  function InvalidHeaders(checks: seq<Check>): (r: map<string, string>)
    ensures forall line :: line in r <==> exists i :: FailsAt(checks, i, line)
    ensures forall line :: line in r ==> exists i :: LastFailureAt(checks, i, line) && r[line] == checks[i].pattern
    decreases |checks|
  {
    if checks == [] then map[]
    else
      var n := |checks| - 1;
      var earlier := InvalidHeaders(checks[..n]);
      assert forall i, line :: 0 <= i < n ==> (FailsAt(checks[..n], i, line) <==> FailsAt(checks, i, line));
      if checks[n].matched then
        assert forall line :: !FailsAt(checks, n, line);
        earlier
      else
        var r := earlier[checks[n].line := checks[n].pattern];
        assert LastFailureAt(checks, n, checks[n].line);
        r
  }

  /** `item_def["pattern"]`, which `re.match` needs to be a string. */
  function PatternOf(item: Json): (r: Result<string>)
    ensures r.Ok? <==> item.JObj? && "pattern" in item.fields && item.fields["pattern"].JStr?
    ensures r.Ok? ==> item.fields["pattern"] == JStr(r.value)
  {
    var pattern :- Index(item, "pattern");
    if pattern.JStr? then Ok(pattern.s) else Err(TypeError)
  }

  /** Position (`line`, `item`) can be checked without raising. */
  predicate Checkable(env: Env, line: string, item: Json)
  {
    PatternOf(item).Ok? && env.matchPrefix(PatternOf(item).value, line).Some?
  }

  /** `re.match(pattern, line)` succeeds at the start of the line. */
  predicate Matches(env: Env, line: string, item: Json)
    requires Checkable(env, line, item)
  {
    env.matchPrefix(PatternOf(item).value, line) == Some(true)
  }

  /** The error raised when checking an uncheckable position. */
  function CheckError(env: Env, line: string, item: Json): Error
  {
    match PatternOf(item)
    case Err(e) => e
    case Ok(pattern) => RegexError(pattern)
  }

  /** The loop at validate.py:109-113 over a list of item schemas: `zip`
      stops at the shorter sequence, and the first position that raises ends
      the loop. */
  function CheckLines(env: Env, headers: seq<string>, items: seq<Json>): (r: Result<seq<Check>>)
    ensures r.Ok? <==> forall i :: 0 <= i < Min(|headers|, |items|) ==> Checkable(env, headers[i], items[i])
    ensures r.Ok? ==> |r.value| == Min(|headers|, |items|)
    ensures r.Ok? ==> forall i :: 0 <= i < |r.value| ==>
                        && r.value[i].line == headers[i]
                        && Ok(r.value[i].pattern) == PatternOf(items[i])
                        && (r.value[i].matched <==> Matches(env, headers[i], items[i]))
    ensures r.Err? ==> exists i :: 0 <= i < Min(|headers|, |items|) && !Checkable(env, headers[i], items[i]) &&
                                   (forall j :: 0 <= j < i ==> Checkable(env, headers[j], items[j])) &&
                                   r.error == CheckError(env, headers[i], items[i])
    decreases |headers|
  {
    if headers == [] || items == [] then Ok([])
    else
      var pattern :- PatternOf(items[0]);
      match env.matchPrefix(pattern, headers[0])
      case None => Err(RegexError(pattern))
      case Some(matched) =>
        var rest :- CheckLines(env, headers[1..], items[1..]);
        Ok([Check(headers[0], pattern, matched)] + rest)
  }

  /** `zip(headers, schema["prefixItems"])` for any value of `prefixItems`:
      a dict or a string iterates as strings, which `item_def["pattern"]`
      rejects as soon as there is a pair; other non-lists are not iterable. */
  function Zip(env: Env, headers: seq<string>, prefixItems: Json): (r: Result<seq<Check>>)
    ensures !prefixItems.JArr? && r.Ok? ==> r.value == []
    ensures (prefixItems.JObj? || prefixItems.JStr?) ==>
              (r.Err? <==> headers != [] && (if prefixItems.JObj? then |prefixItems.fields| else |prefixItems.s|) > 0)
    ensures r.Err? && (prefixItems.JObj? || prefixItems.JStr?) ==> r == Err(TypeError)
    ensures !(prefixItems.JArr? || prefixItems.JObj? || prefixItems.JStr?) ==> r == Err(TypeError)
    ensures prefixItems.JArr? ==> r == CheckLines(env, headers, prefixItems.items)
  {
    match prefixItems
    case JArr(items) => CheckLines(env, headers, items)
    case JObj(keys) => if headers != [] && |keys| > 0 then Err(TypeError) else Ok([])
    case JStr(chars) => if headers != [] && |chars| > 0 then Err(TypeError) else Ok([])
    case _ => Err(TypeError)
  }

  /** How many lines the loop at validate.py:101-106 keeps: line `i` is kept
      while `i < num_header_lines`. The comparison raises when the limit is not
      a number, but only once a line has been read. */
  function HeaderCount(limit: Json, available: nat): (r: Result<nat>)
    ensures available == 0 ==> r == Ok(0)
    ensures available > 0 ==> (r.Ok? <==> NumericValue(limit).Some?)
    ensures r.Ok? ==> r.value <= available
    // every kept index is below the limit, and the first index not kept is not
    ensures r.Ok? && available > 0 ==> r.value == 0 || ((r.value - 1) as real) < NumericValue(limit).value
    ensures r.Ok? && available > 0 ==> r.value == available || (r.value as real) >= NumericValue(limit).value
  {
    if available == 0 then Ok(0)
    else
      match NumericValue(limit)
      case None => Err(TypeError)
      case Some(x) =>
        if x <= 0.0 then Ok(0)
        else
          var ceiling: int := -((-x).Floor);
          Ok(Min(available, ceiling))
  }

  /** `open(filepath, encoding=encoding)` accepts a string or None. */
  function EncodingName(env: Env, encoding: Json): (r: Result<string>)
  {
    match encoding
    case JStr(name) => Ok(name)
    case JNull => Ok(env.localeEncoding)
    case _ => Err(TypeError)
  }

  /** The lines of a file decoded with `encoding`. */
  function ReadLines(env: Env, filepath: string, encoding: string): (r: Result<seq<string>>)
  {
    if filepath !in env.files then Err(FileNotFound(filepath))
    else if encoding !in env.files[filepath].text then Err(DecodeError(encoding))
    else Ok(env.files[filepath].text[encoding])
  }

  /** The guard at validate.py:94: `minItems == maxItems` and `prefixItems` present. */
  predicate Configured(schema: Json)
  {
    && schema.JObj?
    && "minItems" in schema.fields && "maxItems" in schema.fields
    && PyEq(schema.fields["minItems"], schema.fields["maxItems"])
    && "prefixItems" in schema.fields
  }

  /** validate_header. */
  function ValidateHeader(env: Env, filepath: string, encoding: Json, schema: Json): (r: Result<()>)
    // a schema of the wrong shape is rejected before the file is opened
    ensures Index(schema, "minItems").Ok? && Index(schema, "maxItems").Ok? && !Configured(schema) ==>
              r == Err(UnsupportedHeaderSchema)
    ensures r.Ok? ==> Configured(schema)
    ensures r.Err? && r.error.HeaderMismatch? ==> r.error.invalid != map[]
  {
    var minItems :- Index(schema, "minItems");
    var maxItems :- Index(schema, "maxItems");
    if !PyEq(minItems, maxItems) || "prefixItems" !in schema.fields then Err(UnsupportedHeaderSchema)
    else
      var name :- EncodingName(env, encoding);
      var lines :- ReadLines(env, filepath, name);
      var count :- HeaderCount(minItems, |lines|);
      var checks :- Zip(env, lines[..count], schema.fields["prefixItems"]);
      if forall i | 0 <= i < |checks| :: checks[i].matched then Ok(())
      else
        assert InvalidHeaders(checks) != map[] by {
          var i :| 0 <= i < |checks| && !checks[i].matched;
          assert FailsAt(checks, i, checks[i].line);
          assert checks[i].line in InvalidHeaders(checks);
        }
        Err(HeaderMismatch(InvalidHeaders(checks)))
  }

  /** The lines validate_header reads and checks, when the file can be read
      and the limit compared. */
  function HeaderLines(env: Env, filepath: string, encoding: Json, schema: Json): Option<seq<string>>
    requires Configured(schema)
  {
    match EncodingName(env, encoding)
    case Err(_) => None
    case Ok(name) =>
      match ReadLines(env, filepath, name)
      case Err(_) => None
      case Ok(lines) =>
        match HeaderCount(schema.fields["minItems"], |lines|)
        case Err(_) => None
        case Ok(count) => Some(lines[..count])
  }

  /** For a well-formed header schema whose lines can be read, validate_header
      is decided by the checks of the read lines against the item schemas. */
  lemma ValidateHeaderByChecks(env: Env, filepath: string, encoding: Json, schema: Json)
    requires Configured(schema) && schema.fields["prefixItems"].JArr?
    requires HeaderLines(env, filepath, encoding, schema).Some?
    requires CheckLines(env, HeaderLines(env, filepath, encoding, schema).value, schema.fields["prefixItems"].items).Ok?
    ensures var checks := CheckLines(env, HeaderLines(env, filepath, encoding, schema).value,
                                     schema.fields["prefixItems"].items).value;
            ValidateHeader(env, filepath, encoding, schema) ==
              if forall i | 0 <= i < |checks| :: checks[i].matched then Ok(())
              else Err(HeaderMismatch(InvalidHeaders(checks)))
  {
  }

  /** The outcome of validate_header for a well-formed header schema: it
      passes exactly when every line that was read matches the pattern at its
      position, where only `min(lines read, len(prefixItems))` positions are
      checked. When it fails, the report holds exactly the failing lines, each
      with the pattern of the last position at which that line failed. */
  lemma HeaderVerdict(env: Env, filepath: string, encoding: Json, schema: Json)
    requires Configured(schema) && schema.fields["prefixItems"].JArr?
    requires HeaderLines(env, filepath, encoding, schema).Some?
    requires var headers := HeaderLines(env, filepath, encoding, schema).value;
             var items := schema.fields["prefixItems"].items;
             forall i :: 0 <= i < Min(|headers|, |items|) ==> Checkable(env, headers[i], items[i])
    ensures var headers := HeaderLines(env, filepath, encoding, schema).value;
            var items := schema.fields["prefixItems"].items;
            var r := ValidateHeader(env, filepath, encoding, schema);
            && (r.Ok? <==> forall i :: 0 <= i < Min(|headers|, |items|) ==> Matches(env, headers[i], items[i]))
            && (r.Err? ==> r.error.HeaderMismatch?)
            && (r.Err? ==> forall line ::
                  line in r.error.invalid <==>
                  exists i :: 0 <= i < Min(|headers|, |items|) && headers[i] == line && !Matches(env, headers[i], items[i]))
            && (r.Err? ==> forall line :: line in r.error.invalid ==>
                  exists i :: 0 <= i < Min(|headers|, |items|) && headers[i] == line && !Matches(env, headers[i], items[i])
                           && Ok(r.error.invalid[line]) == PatternOf(items[i])
                           && forall j :: i < j < Min(|headers|, |items|) && headers[j] == line ==> Matches(env, headers[j], items[j]))
  {
    var headers := HeaderLines(env, filepath, encoding, schema).value;
    var items := schema.fields["prefixItems"].items;
    var checks := CheckLines(env, headers, items).value;
    ValidateHeaderByChecks(env, filepath, encoding, schema);
    ChecksReport(env, headers, items);
  }

  /** The report built from the checks of `headers` against `items`, in terms
      of the lines and item schemas themselves. */
  lemma ChecksReport(env: Env, headers: seq<string>, items: seq<Json>)
    requires CheckLines(env, headers, items).Ok?
    ensures var checks := CheckLines(env, headers, items).value;
            var k := Min(|headers|, |items|);
            && (forall i :: 0 <= i < |checks| ==> checks[i].matched) ==
               (forall i :: 0 <= i < k ==> Matches(env, headers[i], items[i]))
            && (forall line :: line in InvalidHeaders(checks) <==>
                  exists i :: 0 <= i < k && headers[i] == line && !Matches(env, headers[i], items[i]))
            && (forall line :: line in InvalidHeaders(checks) ==>
                  exists i :: 0 <= i < k && headers[i] == line && !Matches(env, headers[i], items[i])
                           && Ok(InvalidHeaders(checks)[line]) == PatternOf(items[i])
                           && forall j :: i < j < k && headers[j] == line ==> Matches(env, headers[j], items[j]))
  {
    var checks := CheckLines(env, headers, items).value;
    var k := Min(|headers|, |items|);
    assert forall i, line :: FailsAt(checks, i, line) <==>
      0 <= i < k && headers[i] == line && !Matches(env, headers[i], items[i]);
    var m := InvalidHeaders(checks);
    forall line
      ensures line in m <==> exists i :: 0 <= i < k && headers[i] == line && !Matches(env, headers[i], items[i])
    {
      if i :| 0 <= i < k && headers[i] == line && !Matches(env, headers[i], items[i]) {
        assert FailsAt(checks, i, line);
      }
    }
    forall line | line in m
      ensures exists i :: 0 <= i < k && headers[i] == line && !Matches(env, headers[i], items[i])
                          && Ok(m[line]) == PatternOf(items[i])
                          && forall j :: i < j < k && headers[j] == line ==> Matches(env, headers[j], items[j])
    {
      var i :| LastFailureAt(checks, i, line) && m[line] == checks[i].pattern;
      forall j | i < j < k && headers[j] == line
        ensures Matches(env, headers[j], items[j])
      {
        assert !FailsAt(checks, j, line);
      }
    }
  }

  /** A file shorter than the declared header passes when the lines it has match. */
  lemma ShortFileAccepted(env: Env, filepath: string, schema: Json, lines: seq<string>, n: int)
    requires Configured(schema) && schema.fields["minItems"] == JInt(n) && schema.fields["prefixItems"].JArr?
    requires filepath in env.files && "utf-8" in env.files[filepath].text && env.files[filepath].text["utf-8"] == lines
    requires |lines| < n
    requires forall i :: 0 <= i < Min(|lines|, |schema.fields["prefixItems"].items|) ==>
               Checkable(env, lines[i], schema.fields["prefixItems"].items[i]) &&
               Matches(env, lines[i], schema.fields["prefixItems"].items[i])
    ensures ValidateHeader(env, filepath, JStr("utf-8"), schema) == Ok(())
  {
    assert HeaderLines(env, filepath, JStr("utf-8"), schema) == Some(lines[..|lines|]);
    assert lines[..|lines|] == lines;
    HeaderVerdict(env, filepath, JStr("utf-8"), schema);
  }

  /** Two declared lines, the second of which fails: the report names that
      line alone, with the second pattern. */
  lemma SecondLineReported(env: Env, filepath: string, first: string, second: string, rest: seq<string>,
                           p0: string, p1: string)
    requires filepath in env.files && "utf-8" in env.files[filepath].text
    requires env.files[filepath].text["utf-8"] == [first, second] + rest
    requires env.matchPrefix(p0, first) == Some(true) && env.matchPrefix(p1, second) == Some(false)
    ensures var schema := JObj(map["minItems" := JInt(2), "maxItems" := JInt(2),
                                   "prefixItems" := JArr([JObj(map["pattern" := JStr(p0)]),
                                                          JObj(map["pattern" := JStr(p1)])])]);
            ValidateHeader(env, filepath, JStr("utf-8"), schema) == Err(HeaderMismatch(map[second := p1]))
  {
    var schema := JObj(map["minItems" := JInt(2), "maxItems" := JInt(2),
                           "prefixItems" := JArr([JObj(map["pattern" := JStr(p0)]),
                                                  JObj(map["pattern" := JStr(p1)])])]);
    var lines := [first, second] + rest;
    assert HeaderCount(JInt(2), |lines|) == Ok(2);
    assert lines[..2] == [first, second];
    var items := schema.fields["prefixItems"].items;
    var checks := [Check(first, p0, true), Check(second, p1, false)];
    assert PatternOf(items[0]) == Ok(p0) && PatternOf(items[1]) == Ok(p1);
    assert [first, second][1..] == [second] && items[1..] == [items[1]];
    assert [second][1..] == [] && [items[1]][1..] == [];
    assert CheckLines(env, [], []) == Ok([]);
    assert [Check(second, p1, false)] + [] == [Check(second, p1, false)];
    assert CheckLines(env, [second], [items[1]]) == Ok([Check(second, p1, false)]);
    assert [Check(first, p0, true)] + [Check(second, p1, false)] == checks;
    assert CheckLines(env, [first, second], items) == Ok(checks);
    assert InvalidHeaders(checks) == map[second := p1] by {
      assert checks[..1] == [Check(first, p0, true)];
      assert checks[..1][..0] == [];
    }
  }
}

=== FILE: json.dfy ===
/** Deserialized JSON values, as `json.load` hands them to Python, and the
    few Python operations the validator performs on them. */
module Json {
  import opened Results

  /** A Python value produced by `json.load`: None, bool, int, float, str, list or dict. */
  datatype Json =
    | JNull
    | JBool(b: bool)
    | JInt(i: int)
    | JFloat(x: real)
    | JStr(s: string)
    | JArr(items: seq<Json>)
    | JObj(fields: map<string, Json>)

  /** Python's `value[key]` with a string key. */
  function Index(value: Json, key: string): (r: Result<Json>)
    ensures r.Ok? <==> value.JObj? && key in value.fields
    ensures r.Ok? ==> r.value == value.fields[key]
    ensures value.JObj? && key !in value.fields ==> r == Err(KeyError(key))
    ensures !value.JObj? ==> r == Err(TypeError)
  {
    match value
    case JObj(fields) => if key in fields then Ok(fields[key]) else Err(KeyError(key))
    case _ => Err(TypeError)
  }

  /** Python's `value.get(key, default)`. */
  function GetOr(value: Json, key: string, default: Json): (r: Result<Json>)
    ensures r.Ok? <==> value.JObj?
    ensures value.JObj? && key in value.fields ==> r == Ok(value.fields[key])
    ensures value.JObj? && key !in value.fields ==> r == Ok(default)
  {
    match value
    case JObj(fields) => Ok(if key in fields then fields[key] else default)
    case _ => Err(AttributeError)
  }

  /** The numeric value Python sees in a bool, int or float. */
  function NumericValue(value: Json): Option<real>
  {
    match value
    case JBool(b) => Some(if b then 1.0 else 0.0)
    case JInt(i) => Some(i as real)
    case JFloat(x) => Some(x)
    case _ => None
  }

  /** Python's `a == b`: bool, int and float compare by numeric value,
      everything else structurally. */
  predicate PyEq(a: Json, b: Json)
  {
    if NumericValue(a).Some? && NumericValue(b).Some? then NumericValue(a) == NumericValue(b)
    else a == b
  }
}

=== FILE: metadata_validation.dfy ===
/** validate_metadata (file_validator/validate.py): validate a metadata
    record and, on failure and only when asked to, retry once after passing
    every field the schema declares numeric through `float()`. */
module MetadataValidation {
  import opened Results
  import opened Json
  import opened Environment
  import opened Utilities

  /** `float(value)`: ints, floats and bools convert, strings go through the
      parser, everything else is a TypeError. */
  function ToFloat(env: Env, value: Json): (r: Result<Json>)
    ensures r.Ok? ==> r.value.JFloat?
    ensures r.Ok? <==> NumericValue(value).Some? || (value.JStr? && env.parseFloat(value.s).Some?)
    ensures NumericValue(value).Some? ==> r == Ok(JFloat(NumericValue(value).value))
    ensures value.JStr? && r.Ok? ==> r == Ok(JFloat(env.parseFloat(value.s).value))
  {
    match value
    case JStr(s) =>
      (match env.parseFloat(s)
       case Some(x) => Ok(JFloat(x))
       case None => Err(ConversionError))
    case _ =>
      (match NumericValue(value)
       case Some(x) => Ok(JFloat(x))
       case None => Err(ConversionError))
  }

  /** `key in mask and mask[key]`, for a mask that is a dict. */
  predicate Marked(mask: map<string, Mask>, key: string)
  {
    key in mask && Truthy(mask[key])
  }

  /** The dict comprehension of validate.py:84-87. Over an empty record it
      touches nothing; otherwise a bare-bool mask makes `key in mask` raise
      TypeError at the first key, and a marked field whose value `float()`
      rejects raises. */
  function Coerce(env: Env, record: map<string, Json>, mask: Mask): (r: Result<map<string, Json>>)
    ensures r.Ok? ==> r.value.Keys == record.Keys
    ensures r.Ok? ==> forall k :: k in record && !(mask.Fields? && Marked(mask.fields, k)) ==> r.value[k] == record[k]
    ensures r.Ok? ==> forall k :: k in record && mask.Fields? && Marked(mask.fields, k) ==>
                        r.value[k].JFloat? && ToFloat(env, record[k]) == Ok(r.value[k])
    ensures r.Err? <==>
              record != map[] &&
              (mask.Flag? || exists k :: k in record && Marked(mask.fields, k) && ToFloat(env, record[k]).Err?)
    ensures record != map[] && mask.Flag? ==> r == Err(TypeError)
  {
    if record == map[] then Ok(record)
    else
      match mask
      case Flag(_) => Err(TypeError)
      case Fields(m) =>
        if forall k | k in record && Marked(m, k) :: ToFloat(env, record[k]).Ok? then
          Ok(map k | k in record :: if Marked(m, k) then ToFloat(env, record[k]).value else record[k])
        else Err(ConversionError)
  }

  /** Coercing an already coerced record changes nothing: `float` of a float is itself. */
  lemma CoerceIdempotent(env: Env, record: map<string, Json>, mask: Mask)
    requires Coerce(env, record, mask).Ok?
    ensures Coerce(env, Coerce(env, record, mask).value, mask) == Coerce(env, record, mask)
  {
    var once := Coerce(env, record, mask).value;
    if record != map[] {
      var twice := Coerce(env, once, mask);
      assert twice.Ok?;
      assert twice.value == once;
    }
  }

  /** A field whose schema is a non-empty "object" is marked, so a dict
      value in it reaches `float()` and the coercion fails. */
  lemma NestedObjectFieldFailsCoercion(env: Env, record: map<string, Json>, mask: Mask, key: string)
    requires mask.Fields? && key in mask.fields && mask.fields[key].Fields? && mask.fields[key].fields != map[]
    requires key in record && record[key].JObj?
    ensures Coerce(env, record, mask) == Err(ConversionError)
  {
    assert Marked(mask.fields, key);
    assert ToFloat(env, record[key]).Err?;
  }

  /** The single `jsonschema.validate` call, as an outcome. */
  function ValidateAgainst(env: Env, instance: Json, schema: Json): (r: Result<()>)
    ensures r.Ok? <==> env.validate(instance, schema) == Valid
    ensures r.Err? ==> r == Err(SchemaViolation(env.validate(instance, schema).message))
  {
    match env.validate(instance, schema)
    case Valid => Ok(())
    case Invalid(message) => Err(SchemaViolation(message))
  }

  /** validate_metadata. */
  function ValidateMetadata(env: Env, metadata: Json, metadataSchema: Json, handleDeserialized: bool): (r: Result<Json>)
    // the schema is loaded first, and a loading error propagates
    ensures GetJson(env, metadataSchema).Err? ==> r == Err(GetJson(env, metadataSchema).error)
    // a record the schema accepts comes back unchanged, whatever the flag
    ensures GetJson(env, metadataSchema).Ok? && env.validate(metadata, GetJson(env, metadataSchema).value) == Valid ==>
              r == Ok(metadata)
    // without the flag the first violation is re-raised
    ensures GetJson(env, metadataSchema).Ok? && !handleDeserialized &&
            env.validate(metadata, GetJson(env, metadataSchema).value).Invalid? ==>
              r == Err(SchemaViolation(env.validate(metadata, GetJson(env, metadataSchema).value).message))
    // whatever is returned satisfies the schema
    ensures r.Ok? ==> GetJson(env, metadataSchema).Ok? && env.validate(r.value, GetJson(env, metadataSchema).value) == Valid
    // a changed record is the coercion of the input: same keys, only marked fields converted
    ensures r.Ok? && r.value != metadata ==>
              && handleDeserialized
              && metadata.JObj? && r.value.JObj?
              && NumericFields(GetJson(env, metadataSchema).value).Ok?
              && Coerce(env, metadata.fields, NumericFields(GetJson(env, metadataSchema).value).value) == Ok(r.value.fields)
    // with the flag, a violation can only come from validating the coerced record
    ensures handleDeserialized && r.Err? && r.error.SchemaViolation? ==>
              && metadata.JObj?
              && GetJson(env, metadataSchema).Ok?
              && NumericFields(GetJson(env, metadataSchema).value).Ok?
              && Coerce(env, metadata.fields, NumericFields(GetJson(env, metadataSchema).value).value).Ok?
              && env.validate(JObj(Coerce(env, metadata.fields, NumericFields(GetJson(env, metadataSchema).value).value).value),
                              GetJson(env, metadataSchema).value)
                 == Invalid(r.error.message)
    // with the flag, a rejected record is retried: the coerced record comes back when it validates
    ensures var schema := GetJson(env, metadataSchema);
            handleDeserialized && schema.Ok? && env.validate(metadata, schema.value).Invalid? ==>
              && (NumericFields(schema.value).Err? ==> r == Err(MalformedSchema))
              && (NumericFields(schema.value).Ok? && !metadata.JObj? ==> r == Err(AttributeError))
              && (NumericFields(schema.value).Ok? && metadata.JObj? &&
                  Coerce(env, metadata.fields, NumericFields(schema.value).value).Err? ==>
                    r == Err(Coerce(env, metadata.fields, NumericFields(schema.value).value).error))
              && (NumericFields(schema.value).Ok? && metadata.JObj? &&
                  Coerce(env, metadata.fields, NumericFields(schema.value).value).Ok? ==>
                    var coerced := JObj(Coerce(env, metadata.fields, NumericFields(schema.value).value).value);
                    r == (if env.validate(coerced, schema.value) == Valid then Ok(coerced)
                          else Err(SchemaViolation(env.validate(coerced, schema.value).message))))
  {
    var schema :- GetJson(env, metadataSchema);
    match env.validate(metadata, schema)
    case Valid => Ok(metadata)
    case Invalid(message) =>
      if !handleDeserialized then Err(SchemaViolation(message))
      else
        var mask :- NumericFields(schema);
        if !metadata.JObj? then Err(AttributeError)
        else
          var coerced :- Coerce(env, metadata.fields, mask);
          var _ :- ValidateAgainst(env, JObj(coerced), schema);
          Ok(JObj(coerced))
  }

  /** Re-running validate_metadata on its own output returns that output. */
  lemma ValidateMetadataIdempotent(env: Env, metadata: Json, metadataSchema: Json, flag: bool, flag': bool)
    requires ValidateMetadata(env, metadata, metadataSchema, flag).Ok?
    ensures ValidateMetadata(env, ValidateMetadata(env, metadata, metadataSchema, flag).value, metadataSchema, flag')
            == ValidateMetadata(env, metadata, metadataSchema, flag)
  {
  }

  /** Coercion under a mask that marks exactly one field of the record
      converts that field and nothing else. */
  lemma CoerceSingleField(env: Env, metadata: map<string, Json>, mask: Mask, field: string, text: string, x: real)
    requires mask.Fields? && Marked(mask.fields, field)
    requires forall k :: k in metadata && k != field ==> !Marked(mask.fields, k)
    requires field in metadata && metadata[field] == JStr(text) && env.parseFloat(text) == Some(x)
    ensures Coerce(env, metadata, mask) == Ok(metadata[field := JFloat(x)])
  {
    var coerced := Coerce(env, metadata, mask);
    assert coerced.Ok? by {
      forall k | k in metadata && Marked(mask.fields, k)
        ensures ToFloat(env, metadata[k]).Ok?
      {
        assert k == field;
      }
    }
    assert coerced.value == metadata[field := JFloat(x)];
  }

  /** The numeric-string case: a record the schema rejects only because a
      number field holds a string comes back with that field as a float and
      every other field untouched, including fields the schema does not declare. */
  lemma CoercesNumericString(env: Env, metadata: map<string, Json>, schema: Json, field: string, text: string, x: real)
    requires schema.JObj? && NumericFields(schema).Ok? && NumericFields(schema).value.Fields?
    // `field` is the one property the schema declares numeric; any others are left alone
    requires Marked(NumericFields(schema).value.fields, field)
    requires forall k :: k in metadata && k != field ==> !Marked(NumericFields(schema).value.fields, k)
    requires field in metadata && metadata[field] == JStr(text) && env.parseFloat(text) == Some(x)
    requires env.validate(JObj(metadata), schema).Invalid?
    requires env.validate(JObj(metadata[field := JFloat(x)]), schema) == Valid
    ensures ValidateMetadata(env, JObj(metadata), schema, true) == Ok(JObj(metadata[field := JFloat(x)]))
    ensures ValidateMetadata(env, JObj(metadata), schema, false)
            == Err(SchemaViolation(env.validate(JObj(metadata), schema).message))
  {
    CoerceSingleField(env, metadata, NumericFields(schema).value, field, text, x);
  }
}

=== FILE: posix_path.dfy ===
/** The POSIX `os.path` operations the validator uses, on "/"-separated
    strings. `abspath` is modelled without its final `normpath` step. */
module PosixPath {

  const Sep: char := '/'

  /** `os.path.isabs`: the path starts with the separator. */
  predicate IsAbs(p: string)
  {
    |p| > 0 && p[0] == Sep
  }

  /** `str.rfind(c)`: the index of the last occurrence of `c`, or -1. */
  function RFind(p: string, c: char): (i: int)
    ensures -1 <= i < |p|
    ensures i >= 0 ==> p[i] == c
    ensures forall j :: i < j < |p| ==> p[j] != c
  {
    if |p| == 0 then -1
    else if p[|p| - 1] == c then |p| - 1
    else RFind(p[..|p| - 1], c)
  }

  /** `str.rstrip(c)`: drop every trailing `c`. */
  function RStrip(s: string, c: char): (r: string)
    ensures r <= s
    ensures r == [] || r[|r| - 1] != c
    ensures forall j :: |r| <= j < |s| ==> s[j] == c
  {
    if |s| == 0 || s[|s| - 1] != c then s
    else RStrip(s[..|s| - 1], c)
  }

  predicate AllSeparators(s: string)
  {
    forall j :: 0 <= j < |s| ==> s[j] == Sep
  }

  /** `os.path.join(a, b)`: an absolute `b` replaces `a`; otherwise `b` is
      appended, with one separator unless `a` is empty or already ends in one. */
  function Join(a: string, b: string): (r: string)
    ensures IsAbs(b) ==> r == b
    ensures !IsAbs(b) ==> a <= r && |b| <= |r| && r[|r| - |b|..] == b
    ensures IsAbs(a) ==> IsAbs(r)
  {
    if IsAbs(b) then b
    else if a == [] || a[|a| - 1] == Sep then a + b
    else a + [Sep] + b
  }

  /** `os.path.dirname`: everything up to the last separator, with trailing
      separators removed unless nothing else is left. */
  function Dirname(p: string): (r: string)
    ensures r <= p
    ensures IsAbs(p) ==> IsAbs(r)
  {
    var head := p[..RFind(p, Sep) + 1];
    if head != [] && !AllSeparators(head) then
      var stripped := RStrip(head, Sep);
      assert IsAbs(head) ==> IsAbs(stripped) by {
        if IsAbs(head) {
          var k :| 0 <= k < |head| && head[k] != Sep;
          assert |stripped| > k;
        }
      }
      stripped
    else head
  }

  /** `os.path.basename`: the part after the last separator. */
  function Basename(p: string): (r: string)
    ensures Sep !in r
    ensures |r| <= |p| && p[|p| - |r|..] == r
    ensures |r| == |p| || p[|p| - |r| - 1] == Sep
  {
    p[RFind(p, Sep) + 1..]
  }

  /** `os.path.abspath` relative to the working directory `cwd`. */
  function AbsPath(cwd: string, p: string): (r: string)
    ensures IsAbs(p) ==> r == p
    ensures IsAbs(cwd) ==> IsAbs(r)
  {
    if IsAbs(p) then p else Join(cwd, p)
  }
}

=== FILE: results.dfy ===
/** Failure-compatible wrappers and the exceptions the validator can raise.

    Every Python exception that escapes a validator function becomes an
    `Error` value; a call that returns normally becomes `Ok`.
 */
module Results {

  datatype Option<+T> = None | Some(value: T)

  /** The exceptions raised by the validator and its collaborators. */
  datatype Error =
    /** jsonschema.ValidationError, carrying the engine's message. */
    | SchemaViolation(message: string)
    /** The bare Exception raised when the definition or a schema is not a dict (validate.py:64). */
    | SchemasRequired
    /** The bare Exception raised for a header schema of unsupported shape (validate.py:95). */
    | UnsupportedHeaderSchema
    /** The bare Exception raised when some header lines fail (validate.py:119): failing line to pattern. */
    | HeaderMismatch(invalid: map<string, string>)
    /** A subscript `d[key]` on a dict that lacks `key`. */
    | KeyError(key: string)
    /** A subscript, comparison, iteration or call on a value of the wrong Python type. */
    | TypeError
    /** `.items()` or `.get()` on a value that is not a dict. */
    | AttributeError
    /** A KeyError, TypeError or IndexError raised while walking a schema for its numeric fields. */
    | MalformedSchema
    /** `float(value)` raised TypeError or ValueError during coercion. */
    | ConversionError
    /** `open` on a path that names no file. */
    | FileNotFound(path: string)
    /** `json.load` on a file that is not JSON. */
    | JsonDecodeError(path: string)
    /** The file cannot be read as text in the given encoding. */
    | DecodeError(encoding: string)
    /** `re.match` with a pattern that does not compile. */
    | RegexError(pattern: string)

  datatype Result<+T> = Ok(value: T) | Err(error: Error) {

    predicate IsFailure() {
      Err?
    }

    function PropagateFailure<U>(): Result<U>
      requires Err?
    {
      Err(error)
    }

    function Extract(): T
      requires Ok?
    {
      value
    }
  }
}

=== FILE: utilities.dfy ===
/** file_validator/utilities.py: the numeric-field mask of a schema, the
    resolution of relative schema references, and the schema loader. */
module Utilities {
  import opened Results
  import opened Json
  import opened PosixPath
  import opened Environment

  /** What `get_numeric_fields_in_schema` returns: `True`/`False` for a leaf,
      a dict from property name to mask for an "object" schema. */
  datatype Mask = Flag(numeric: bool) | Fields(fields: map<string, Mask>)

  /** Python truthiness of a mask value: a bool is itself, a dict is truthy when non-empty. */
  predicate Truthy(mask: Mask)
  {
    match mask
    case Flag(b) => b
    case Fields(m) => |m| > 0
  }

  /** `schema["type"]` when the schema is a dict that declares one. */
  function DeclaredType(schema: Json): Option<Json>
  {
    if schema.JObj? && "type" in schema.fields then Some(schema.fields["type"]) else None
  }

  /** The `properties` dict of an "object" schema, when it has one. */
  function PropertiesOf(schema: Json): Option<map<string, Json>>
  {
    if DeclaredType(schema) == Some(JStr("object")) && "properties" in schema.fields
       && schema.fields["properties"].JObj?
    then Some(schema.fields["properties"].fields)
    else None
  }

  /** get_numeric_fields_in_schema. A KeyError, TypeError or IndexError
      anywhere in the walk is reported as MalformedSchema. Iterating an empty
      list or an empty string of properties yields an empty dict, as in
      Python; any other non-dict `properties` raises. */
  function NumericFields(schema: Json): (r: Result<Mask>)
    ensures r == Ok(Flag(true)) <==> DeclaredType(schema) == Some(JStr("number"))
    ensures r == Ok(Flag(false)) <==>
              DeclaredType(schema).Some? && DeclaredType(schema).value !in {JStr("number"), JStr("object")}
    ensures r.Ok? && r.value.Fields? ==> DeclaredType(schema) == Some(JStr("object"))
    ensures DeclaredType(schema).None? ==> r == Err(MalformedSchema)
    ensures PropertiesOf(schema).Some? && r.Ok? ==> r.value.Fields? && r.value.fields.Keys == PropertiesOf(schema).value.Keys
    // an "object" schema with a properties dict gets a mask exactly when every property does
    ensures PropertiesOf(schema).Some? ==>
              (r.Ok? <==> forall k :: k in PropertiesOf(schema).value ==> NumericFields(PropertiesOf(schema).value[k]).Ok?)
    decreases schema
  {
    match schema
    case JObj(s) =>
      if "type" !in s then Err(MalformedSchema)
      else if s["type"] == JStr("number") then Ok(Flag(true))
      else if s["type"] != JStr("object") then Ok(Flag(false))
      else if "properties" !in s then Err(MalformedSchema)
      else
        (match s["properties"]
         case JObj(props) =>
           if forall k | k in props :: NumericFields(props[k]).Ok? then
             Ok(Fields(map k | k in props :: NumericFields(props[k]).value))
           else Err(MalformedSchema)
         case JArr(items) => if items == [] then Ok(Fields(map[])) else Err(MalformedSchema)
         case JStr(chars) => if chars == [] then Ok(Fields(map[])) else Err(MalformedSchema)
         case _ => Err(MalformedSchema))
    case _ => Err(MalformedSchema)
  }

  /** The subschema reached by following property names through nested "object" schemas. */
  function SubSchema(schema: Json, path: seq<string>): Option<Json>
    decreases |path|
  {
    if path == [] then Some(schema)
    else
      match PropertiesOf(schema)
      case Some(props) => if path[0] in props then SubSchema(props[path[0]], path[1..]) else None
      case None => None
  }

  /** The mask entry reached by following property names through nested dicts. */
  function MaskAt(mask: Mask, path: seq<string>): Option<Mask>
    decreases |path|
  {
    if path == [] then Some(mask)
    else if mask.Fields? && path[0] in mask.fields then MaskAt(mask.fields[path[0]], path[1..])
    else None
  }

  /** The mask has the shape of the schema at every depth: a property path
      leads somewhere in the mask exactly when it leads to a subschema, and
      the entry there is that subschema's own mask; in particular the entry
      is `True` exactly for the properties declared as numbers. */
  lemma {:induction false} MaskMirrorsSchema(schema: Json, path: seq<string>)
    requires NumericFields(schema).Ok?
    ensures SubSchema(schema, path).Some? <==> MaskAt(NumericFields(schema).value, path).Some?
    ensures SubSchema(schema, path).Some? ==>
              NumericFields(SubSchema(schema, path).value) == Ok(MaskAt(NumericFields(schema).value, path).value)
    ensures MaskAt(NumericFields(schema).value, path) == Some(Flag(true)) <==>
              SubSchema(schema, path).Some? && DeclaredType(SubSchema(schema, path).value) == Some(JStr("number"))
    decreases |path|
  {
    var mask := NumericFields(schema).value;
    if path != [] {
      match PropertiesOf(schema)
      case Some(props) =>
        if path[0] in props {
          MaskMirrorsSchema(props[path[0]], path[1..]);
        }
      case None =>
        assert mask.Fields? ==> mask.fields == map[];
    }
  }

  /** An "object" schema with one "number" property and one other typed
      property maps the first to `True` and the second to `False`. */
  lemma ObjectSchemaMask(numeric: string, other: string, otherType: string)
    requires numeric != other && otherType !in {"number", "object"}
    ensures var schema := JObj(map["type" := JStr("object"),
                                   "properties" := JObj(map[numeric := JObj(map["type" := JStr("number")]),
                                                            other := JObj(map["type" := JStr(otherType)])])]);
            NumericFields(schema) == Ok(Fields(map[numeric := Flag(true), other := Flag(false)]))
  {
    var props := map[numeric := JObj(map["type" := JStr("number")]),
                     other := JObj(map["type" := JStr(otherType)])];
    var schema := JObj(map["type" := JStr("object"), "properties" := JObj(props)]);
    assert NumericFields(props[numeric]) == Ok(Flag(true));
    assert NumericFields(props[other]) == Ok(Flag(false));
    assert NumericFields(schema).Ok?;
    assert NumericFields(schema).value.fields == map[numeric := Flag(true), other := Flag(false)];
  }

  /** A schema that does not declare "object" never yields a dict. */
  lemma NonObjectSchemaIsFlag(schema: Json)
    requires DeclaredType(schema).Some? && DeclaredType(schema).value != JStr("object")
    ensures NumericFields(schema) == Ok(Flag(DeclaredType(schema).value == JStr("number")))
  {
  }

  /** get_absolute_path_from_relative_path. */
  function ResolveRelative(filepath: string, baseDir: string): (r: string)
    ensures IsAbs(filepath) ==> r == filepath
    ensures !IsAbs(filepath) ==> baseDir <= r && |filepath| <= |r| && r[|r| - |filepath|..] == filepath
    ensures IsAbs(baseDir) ==> IsAbs(r)
  {
    if !IsAbs(filepath) then Join(baseDir, filepath) else filepath
  }

  /** Against an absolute base, resolving is idempotent. */
  lemma ResolveRelativeIdempotent(filepath: string, baseDir: string, otherBase: string)
    requires IsAbs(baseDir)
    ensures ResolveRelative(ResolveRelative(filepath, baseDir), otherBase) == ResolveRelative(filepath, baseDir)
  {
  }

  /** get_json: a dict is returned as is, a string names a file to parse,
      anything else is a TypeError. */
  function GetJson(env: Env, source: Json): (r: Result<Json>)
    ensures source.JObj? ==> r == Ok(source)
    ensures !source.JStr? && !source.JObj? ==> r == Err(TypeError)
    ensures source.JStr? ==> (r.Ok? <==> source.s in env.files && env.files[source.s].json.Some?)
    ensures source.JStr? && r.Ok? ==> r.value == env.files[source.s].json.value
    ensures source.JStr? && source.s !in env.files ==> r == Err(FileNotFound(source.s))
    ensures source.JStr? && source.s in env.files && r.Err? ==> r == Err(JsonDecodeError(source.s))
  {
    match source
    case JStr(path) =>
      if path !in env.files then Err(FileNotFound(path))
      else if env.files[path].json.None? then Err(JsonDecodeError(path))
      else Ok(env.files[path].json.value)
    case JObj(_) => Ok(source)
    case _ => Err(TypeError)
  }

  /** Loading what get_json returned, when that is a dict, changes nothing. */
  lemma GetJsonIdempotent(env: Env, other: Env, source: Json)
    requires GetJson(env, source).Ok? && GetJson(env, source).value.JObj?
    ensures GetJson(other, GetJson(env, source).value) == GetJson(env, source)
  {
  }
}
